=== FILE: README.md ===
# calwriter core, modelled in Dafny

calwriter is a small Flask application for long-form writing. Its data directory holds
one directory per folder, one sub-directory per chapter, and one `.rtf` file per note.
A browser-side editor shows a live word count. This project models the three pure
computations at the heart of that application, and the create and download routes
as operations on an abstract data directory:

- `safe_name` (`Sanitize`, in `sanitize.dfy`). It keeps the alphanumeric characters, spaces,
  `_` and `-` of a user string, in order, and strips trailing whitespace. Every route
  uses it before it joins a name into a path.
- `rtf_wrap` (`Rtf`, in `rtf.dfy`). It replaces each line feed with the RTF control word `\par `
  and wraps the text in a fixed one-font RTF envelope. `Unwrap` is an independent
  reader for such documents, used to state the round trip.
- The tokenise-and-count step of `updateWordCount` (`WordCount`, in `wordcount.dfy`). This is
  `text.trim().split(/\s+/).filter(Boolean).length`. It is modelled step by step in
  `Tokens` and compared with a reference tokeniser, `Words`, and with a count of
  maximal non-whitespace runs, `RunCount`.
- `create_folder`, `create_chapter`, `create_note` and `download_note` (`Store`, in `store.dfy`).
  They work on a `Store`: the set of directories below the data directory and a map
  from file paths to contents. `Wf` is the invariant the routes keep: every directory
  and file lies strictly inside the data directory, under sanitised names. The routes'
  reply is the flashed message and the redirect target.

`chars.dfy` (`Chars`) holds the character classes. Python's `str.isspace`, used by `rstrip`,
and ECMAScript's `\s`, used by `trim` and the split, are different sets, so each has
its own predicate. `Chars` also holds the trimming functions both sides share.
`Seqs` (`seqs.dfy`) defines subsequences, and `Wrappers` (`wrappers.dfy`) the option type.

## Model

| member | source | states |
|---|---|---|
| Sanitize.Keep | app.py:14 | the filter keeps only allowed characters and yields a subsequence of its input |
| Sanitize.KeepCounts | app.py:14 | the filter keeps every allowed character exactly as often as the input holds it, and no other character |
| Sanitize.SafeName | app.py:13-14 | the result holds only alphanumerics, space, `_` and `-`, and does not end in whitespace |
| Sanitize.SafeNameSpec | app.py:14 | the result is a subsequence of the input; it is the filtered string minus a tail made only of spaces; it never holds `/` or `.` |
| Sanitize.SafeNameFixedPoint | app.py:13-14 | a string is left unchanged by `safe_name` exactly when it is already a safe name |
| Sanitize.SafeNameIdempotent | app.py:13-14 | sanitising twice gives the same as sanitising once |
| Sanitize.SafeNameIsOneSegment | app.py:14 | a sanitised name is never `.` or `..` and holds no `/` or `\`, so joining it cannot leave the parent directory |
| Sanitize.SafeNameEmpty | app.py:14 | the result is empty (the "name required" case) exactly when the input holds no alphanumeric, `_` or `-` character |
| Chars.PyIsSpace | app.py:14 | the whitespace set of `str.isspace`, which `rstrip` removes: U+0009 to U+000D, U+001C to U+0020, U+0085, U+00A0, U+1680, U+2000 to U+200A, U+2028, U+2029, U+202F, U+205F and U+3000 |
| Chars.JsIsSpace | static/editor.js:12 | the ECMAScript WhiteSpace and LineTerminator set, which `\s` matches and `trim()` removes: U+0009 to U+000D, U+0020, U+00A0, U+1680, U+2000 to U+200A, U+2028, U+2029, U+202F, U+205F, U+3000 and U+FEFF |
| Chars.SpaceSetsDiffer | static/editor.js:12 | the two whitespace sets agree on every code point below U+001C, in both directions, and on space, tab and line feed; U+001C to U+001F and U+0085 are whitespace only to Python, U+FEFF only to ECMAScript |
| Chars.TrimRight | app.py:14 | `rstrip` removes exactly the longest whitespace tail: the result is a prefix, every removed character is whitespace, and the result does not end in whitespace |
| Rtf.EscapeNewlines | app.py:18 | the replaced text holds no line feed and is 4 characters longer per line feed |
| Rtf.RtfWrap | app.py:17-19 | the document starts with the fixed header, ends with `}`, holds no line feed, and has the length of header, escaped text and trailer together |
| Rtf.EscapeAppend | app.py:18 | the replacement works character by character: it distributes over concatenation |
| Rtf.EscapeVerbatim | app.py:18 | text without line feeds is copied unchanged, backslashes and braces included |
| Rtf.UnescapeEscape | app.py:18 | reading `\par ` back as a line feed undoes the replacement for every text that does not itself spell `\par ` |
| Rtf.RtfRoundTrip | app.py:17-19 | for every text that does not itself spell `\par `, the document reads back to that text |
| Rtf.WrapConflatesParagraphs | app.py:18-19 | a line feed and a literal `\par ` at the same place give the same document, so `rtf_wrap` is not injective |
| WordCount.DropWs | static/editor.js:12 | the left half of `trim()`: the result is a suffix, every removed character is whitespace, and the result is empty or starts with a non-whitespace character |
| WordCount.Trim | static/editor.js:12 | `trim()` leaves the left-trimmed text minus a whitespace tail, with no whitespace at either end; so it is a contiguous slice with only whitespace removed on both sides |
| WordCount.SplitWs | static/editor.js:12 | `split(/\s+/)` returns at least one field, and no field holds whitespace |
| WordCount.SplitWsFields | static/editor.js:12 | the fields of `split(/\s+/)` are exactly the words, with one empty field in front when the text starts with whitespace and one at the end when the text is empty or ends with whitespace |
| Seqs.NonEmpty | static/editor.js:12 | `filter(Boolean)` returns only non-empty strings, each taken from its input, never more than it was given, and all of them unchanged when none is empty; `Store.Join` uses the same filter for `os.path.join` |
| Seqs.NonEmptySpec | static/editor.js:12 | `filter(Boolean)`, and through `Store.Join` also `os.path.join` of sanitised names, keeps exactly the non-empty strings, in order: a subsequence that leaves out only the empty strings |
| WordCount.SplitFindsWords | static/editor.js:12 | split on whitespace runs, then dropping empty strings, gives exactly the reference words |
| WordCount.WordsTrim | static/editor.js:12 | trimming never changes the words of a text |
| WordCount.WordsAppendWs | static/editor.js:12 | trailing whitespace never changes the words of a text |
| WordCount.WordsCountRuns | static/editor.js:12-14 | the number of words equals the number of maximal runs of non-whitespace characters |
| WordCount.WordsConcat | static/editor.js:12 | the words written one after another give the text with all whitespace removed, so they appear in text order and nothing else is lost |
| WordCount.WordsEmpty | static/editor.js:11-12 | a text has no words exactly when it is empty or all whitespace |
| WordCount.Tokens | static/editor.js:12 | the tokens are the reference words: each non-empty and free of whitespace, and together they spell the text without its whitespace |
| WordCount.WordCount | static/editor.js:12-14 | the count is the number of non-whitespace runs, and it is 0 exactly when the text is empty or all whitespace |
| WordCount.WordCountIgnoresPadding | static/editor.js:12 | whitespace before and after a text never changes its count |
| Store.Join | app.py:34 | `os.path.join` yields only non-empty names taken from its arguments, and all of them unchanged when none is empty; with `Seqs.NonEmptySpec` it keeps exactly the non-empty names, in order |
| Store.NotePath | app.py:85 | `os.path.join(path, f"{title}.rtf")`: the note lies directly inside the chapter directory, named by the title followed by `.rtf` |
| Store.MakeDirs | app.py:35 | after `makedirs` the path and every directory above it exist; nothing else is added and files are untouched |
| Store.WriteNote | app.py:84-87 | after writing, the note path holds the new contents, every other file is unchanged, and the directory chain exists |
| Store.WriteNoteTwice | app.py:84-87 | a second write of the same note leaves what a single write of the second contents leaves |
| Store.CreateFolder | app.py:28-36 | an empty sanitised name flashes "Folder name required", leaves the store unchanged and returns to the index; otherwise exactly the folder directory is added and the folder page follows |
| Store.CreateChapter | app.py:50-59 | an empty sanitised chapter name flashes "Chapter name required" and leaves the store unchanged; otherwise the folder and chapter directories are added (only the chapter when the folder name sanitises to nothing) and the chapter page follows |
| Store.CreateNote | app.py:74-88 | an empty sanitised title flashes "Note title required" and leaves the store unchanged; otherwise `<title>.rtf` holds `rtf_wrap(text)`, no other file changes, and the directories afterwards are the old ones plus the chapter directory and every directory above it |
| Store.DownloadNote | app.py:91-97 | a file is served exactly when the path joined from the three sanitised names is a file, and what is served is the contents of that file |
| Store.EmptyWf | app.py:7-10 | the freshly created data directory is well formed |
| Store.MakeDirsWf | app.py:35 | creating a chain of sanitised names keeps the data directory well formed |
| Store.CreateFolderWf | app.py:28-36 | `create_folder` keeps the data directory well formed |
| Store.CreateChapterWf | app.py:50-59 | `create_chapter` keeps the data directory well formed |
| Store.WriteNoteWf | app.py:85-87 | writing a note with a sanitised title into an existing sanitised directory keeps the data directory well formed |
| Store.CreateNoteWf | app.py:74-88 | `create_note` keeps the data directory well formed |
| Store.DirsAndFilesDisjoint | app.py:34-35 | in a well-formed data directory no path is both a directory and a file, so `makedirs` never meets a note file |
| Store.CreateFolderIdempotent | app.py:35 | creating the same folder twice gives the same store and reply as creating it once |
| Store.CreateChapterIdempotent | app.py:58 | creating the same chapter twice gives the same store and reply as creating it once |
| Store.CreateNoteOverwrites | app.py:85-87 | a second note with the same title replaces the first one's text, with the same store as a single creation |
| Store.DownloadNeverServes | app.py:91-97 | in a well-formed data directory `download_note` as written never finds a file |
| Store.CreatedNoteNotDownloadable | app.py:85-95 | the note `create_note` has just written is not served when requested by its file name |
| Store.NoteFile | app.py:85 | a request resolves exactly when it ends in `.rtf` and its stem sanitises to a non-empty name, and then to a note file name inside the sanitised chapter directory |
| Store.NoteFileOfNotePath | app.py:85 | the file name `create_note` gives a sanitised title resolves back to that note's path |
| Store.DownloadNoteFixed | app.py:91-97 | with the `.rtf` extension kept, a note is served exactly when its file exists, and with its stored contents |
| Store.DownloadFixedServesNote | app.py:74-97 | the corrected download serves back the `rtf_wrap(text)` that `create_note` wrote |

## Left out

- Flask routing, `render_template`, `redirect`/`url_for`, `flash` and `app.run` are transport and presentation. The reply is modelled as a flashed message plus a redirect target.
- `send_from_directory` is modelled as a lookup that answers `None` for "not found". Its own path checks and HTTP headers are not modelled.
- `index`, `view_folder` and `view_chapter` (app.py:22-25, 39-47, 62-71) only list directories. Their listing filters, including the `.rtf` filter of `view_chapter`, are read-side views and are left out.
- Real filesystem calls (`os.makedirs`, `open`, `write`, `os.listdir`) become operations on the `Store` value. I/O errors, permissions and concurrent requests are not modelled.
- Chars.IsAlnum, Sanitize.Keep, Sanitize.SafeName: `str.isalnum` is modelled as ASCII letters and digits only. Python also accepts non-ASCII letters and digits, which `safe_name` would keep.
- `request.form.get(..., '')` is modelled by passing the form value as a string. A missing field is the empty string.
- The DOM side of `updateWordCount` (`getElementById`, `innerText`, writing `textContent`) and the `input` listener are browser APIs. The model starts from the text and ends at the count.
- The notes autosave (static/editor.js:23-37) is timer and network behaviour (`setTimeout`, `fetch`). `execCommand` and `prepareChapter` are editor glue.

## Findings

| source | as written | input that shows it | evidently intended | confidence | as-written member | corrected member |
|---|---|---|---|---|---|---|
| app.py:95 | `download_note` sanitises the requested file name, which removes the `.` of `.rtf`, while `create_note` (app.py:85) stores every note as `<title>.rtf` | create a note titled `a` (stored as `a.rtf`), then request `/folder/f/c/a.rtf`: the lookup is for `artf`, which does not exist | sanitise only the stem and keep the `.rtf` extension, so that a note is served back by its file name | high that no stored note is ever served; not executed | Store.DownloadNeverServes | Store.DownloadFixedServesNote |

=== FILE: chars.dfy ===
/** Character classes the two core files rely on, and the trimming helpers built on them.

    Python's `str.isspace` (used by `str.rstrip`) and ECMAScript's `\s` (used by
    `String.prototype.trim` and the `/\s+/` split) are two different whitespace sets,
    so each gets its own predicate. */
module Chars {

  /** `str.isalnum` restricted to ASCII: letters and decimal digits. */
  predicate IsAlnum(c: char)
  {
    ('a' <= c <= 'z') || ('A' <= c <= 'Z') || ('0' <= c <= '9')
  }

  /** Python's `str.isspace` for one character: the code points whose bidirectional
      class is WS, B or S, or whose category is Zs. */
  predicate PyIsSpace(c: char)
  {
    var n := c as int;
    || (0x09 <= n <= 0x0D)
    || (0x1C <= n <= 0x20)
    || n == 0x85
    || n == 0xA0
    || n == 0x1680
    || (0x2000 <= n <= 0x200A)
    || n == 0x2028
    || n == 0x2029
    || n == 0x202F
    || n == 0x205F
    || n == 0x3000
  }

  /** ECMAScript WhiteSpace or LineTerminator: what `\s` matches and what `trim()` removes. */
  predicate JsIsSpace(c: char)
  {
    var n := c as int;
    || (0x09 <= n <= 0x0D)
    || n == 0x20
    || n == 0xA0
    || n == 0x1680
    || (0x2000 <= n <= 0x200A)
    || n == 0x2028
    || n == 0x2029
    || n == 0x202F
    || n == 0x205F
    || n == 0x3000
    || n == 0xFEFF
  }

  /** The two whitespace sets agree below U+001C and on the space, and differ elsewhere:
      the information separators U+001C to U+001F and NEL (U+0085) are whitespace only to
      Python, and the byte order mark U+FEFF only to ECMAScript. */
  lemma SpaceSetsDiffer()
    ensures forall c :: (c as int) < 0x1C ==> (PyIsSpace(c) <==> JsIsSpace(c))
    ensures forall c :: 0x1C <= (c as int) <= 0x1F ==> PyIsSpace(c) && !JsIsSpace(c)
    ensures PyIsSpace(' ') && JsIsSpace(' ') && PyIsSpace('\t') && JsIsSpace('\t') && PyIsSpace('\n') && JsIsSpace('\n')
    ensures PyIsSpace('\U{1C}') && !JsIsSpace('\U{1C}')
    ensures PyIsSpace('\U{85}') && !JsIsSpace('\U{85}')
    ensures !PyIsSpace('\U{FEFF}') && JsIsSpace('\U{FEFF}')
  {
  }

  /** Removes the longest prefix of characters satisfying `isWs`. */
  function TrimLeft(s: string, isWs: char -> bool): (r: string)
    ensures |r| <= |s| && r == s[|s| - |r|..]
    ensures forall i :: 0 <= i < |s| - |r| ==> isWs(s[i])
    ensures |r| == 0 || !isWs(r[0])
  {
    if |s| == 0 || !isWs(s[0]) then s else TrimLeft(s[1..], isWs)
  }

  /** Removes the longest suffix of characters satisfying `isWs`. */
  function TrimRight(s: string, isWs: char -> bool): (r: string)
    ensures |r| <= |s| && r == s[..|r|]
    ensures forall i :: |r| <= i < |s| ==> isWs(s[i])
    ensures |r| == 0 || !isWs(r[|r| - 1])
  {
    if |s| == 0 || !isWs(s[|s| - 1]) then s else TrimRight(s[..|s| - 1], isWs)
  }

  /** The three properties of `TrimLeft` determine its result: any suffix of `s` that
      drops only `isWs` characters and does not itself start with one is `TrimLeft(s)`. */
  lemma TrimLeftUnique(s: string, isWs: char -> bool, r: string)
    requires |r| <= |s| && r == s[|s| - |r|..]
    requires forall i :: 0 <= i < |s| - |r| ==> isWs(s[i])
    requires |r| == 0 || !isWs(r[0])
    ensures TrimLeft(s, isWs) == r
  {
  }

  /** Likewise, `TrimRight` is determined by its three properties. */
  lemma TrimRightUnique(s: string, isWs: char -> bool, r: string)
    requires |r| <= |s| && r == s[..|r|]
    requires forall i :: |r| <= i < |s| ==> isWs(s[i])
    requires |r| == 0 || !isWs(r[|r| - 1])
    ensures TrimRight(s, isWs) == r
  {
  }

  /** `s` is `TrimRight(s)` followed by the characters it removed. */
  lemma TrimRightSplit(s: string, isWs: char -> bool)
    ensures var r := TrimRight(s, isWs);
      s == r + s[|r|..] && forall i :: 0 <= i < |s| - |r| ==> isWs(s[|r|..][i])
  {
    var r := TrimRight(s, isWs);
    assert s == r + s[|r|..];
  }
}

=== FILE: rtf.dfy ===
/** `rtf_wrap` (app.py): the serialiser that turns a note's plain text into the RTF
    document `create_note` writes. Every line feed becomes the control word `\par `
    and the result is placed inside a fixed one-font RTF envelope. No other
    character is escaped, backslashes and braces included. */
module Rtf {
  import opened Chars
  import opened Wrappers
  import opened Seqs

  /** Opens the document group: RTF version 1, ANSI character set, default font 0. */
  const Prologue: string := "{\\rtf1\\ansi\\deff0 "

  /** A one-entry font table naming Arial as font 0. */
  const FontTable: string := "{\\fonttbl {\\f0 Arial;}}"

  /** Selects font 0 for the body text. */
  const FontSelect: string := "\\f0 "

  /** Everything `rtf_wrap` writes before the text. */
  const Header: string := Prologue + FontTable + FontSelect

  /** The paragraph control word, with the space that delimits it. */
  const Par: string := "\\par "

  /** Closes the group opened by the first character of `Header`. */
  const Trailer: string := "}"

  /** `text.replace('\n', '\\par ')`. */
  function EscapeNewlines(t: string): (r: string)
    ensures '\n' !in r
    ensures |r| == |t| + 4 * multiset(t)['\n']
  {
    if |t| == 0 then []
    else
      assert t == [t[0]] + t[1..];
      (if t[0] == '\n' then Par else [t[0]]) + EscapeNewlines(t[1..])
  }

  /** `rtf_wrap(text)`. */
  function RtfWrap(t: string): (doc: string)
    ensures Header <= doc
    ensures |doc| == |Header| + |t| + 4 * multiset(t)['\n'] + |Trailer|
    ensures doc[|doc| - 1] == '}'
    ensures '\n' !in doc
  {
    var body := EscapeNewlines(t);
    assert '\n' !in Header;
    Header + body + Trailer
  }

  /** The replacement works character by character: it distributes over concatenation. */
  lemma {:induction false} EscapeAppend(a: string, b: string)
    ensures EscapeNewlines(a + b) == EscapeNewlines(a) + EscapeNewlines(b)
  {
    if |a| == 0 {
      assert a + b == b;
    } else {
      assert (a + b)[0] == a[0];
      assert (a + b)[1..] == a[1..] + b;
      EscapeAppend(a[1..], b);
    }
  }

  /** Text without line feeds is copied verbatim, backslashes and braces included. */
  lemma {:induction false} EscapeVerbatim(t: string)
    requires '\n' !in t
    ensures EscapeNewlines(t) == t
  {
    if |t| > 0 {
      EscapeVerbatim(t[1..]);
    }
  }

  /** `t` has an occurrence of the five characters `\par `. */
  predicate ContainsPar(t: string)
  {
    |t| >= |Par| && (t[..|Par|] == Par || ContainsPar(t[1..]))
  }

  /** Reads the control word `\par ` back as a line feed, left to right. */
  function Unescape(s: string): (t: string)
    ensures |t| <= |s|
  {
    if |s| == 0 then []
    else if Par <= s then ['\n'] + Unescape(s[|Par|..])
    else [s[0]] + Unescape(s[1..])
  }

  /** Recovers the text from a document with `Header` in front and `Trailer` at the end. */
  function Unwrap(doc: string): (r: Option<string>)
    ensures r.Some? <==> |doc| > |Header| && Header <= doc && doc[|doc| - 1] == '}'
  {
    if |doc| > |Header| && Header <= doc && doc[|doc| - 1] == '}' then
      Some(Unescape(doc[|Header|..|doc| - 1]))
    else
      None
  }

  /** The first character of the escaped text. */
  lemma EscapeHead(u: string)
    requires |u| > 0
    ensures EscapeNewlines(u) == (if u[0] == '\n' then Par else [u[0]]) + EscapeNewlines(u[1..])
    ensures EscapeNewlines(u)[0] == if u[0] == '\n' then '\\' else u[0]
  {
  }

  /** A prefix free of backslashes survives the replacement only if it was already there. */
  lemma {:induction false} EscapedPrefix(u: string, w: string)
    requires '\\' !in w
    requires w <= EscapeNewlines(u)
    ensures w <= u
  {
    if |w| > 0 {
      assert u != [];
      EscapeHead(u);
      assert w[0] in w;
      assert EscapeNewlines(u) == [u[0]] + EscapeNewlines(u[1..]);
      EscapedPrefix(u[1..], w[1..]);
    }
  }

  /** The replacement is undone by `Unescape` unless the text itself spells `\par `. */
  lemma {:induction false} UnescapeEscape(t: string)
    requires !ContainsPar(t)
    ensures Unescape(EscapeNewlines(t)) == t
  {
    if |t| > 0 {
      var rest := EscapeNewlines(t[1..]);
      UnescapeEscape(t[1..]);
      if t[0] == '\n' {
        assert EscapeNewlines(t) == Par + rest;
        assert (Par + rest)[|Par|..] == rest;
      } else {
        var x := EscapeNewlines(t);
        assert x == [t[0]] + rest;
        if Par <= x {
          ParInFront(t);
          ParSpelled(t);
        }
        assert x[1..] == rest;
      }
    }
  }

  /** If the escaped form of a text that does not start with a line feed begins with
      `\par `, the rest of the control word comes from the rest of the text. */
  lemma ParTailEscaped(t: string)
    requires |t| > 0 && t[0] != '\n'
    requires Par <= EscapeNewlines(t)
    ensures t[0] == Par[0]
    ensures Par[1..] <= EscapeNewlines(t[1..])
  {
    EscapeHead(t);
    PrefixShift(Par, EscapeNewlines(t));
  }

  /** The control word after its backslash holds no backslash. */
  lemma ParTailPlain(u: string)
    requires Par[1..] <= EscapeNewlines(u)
    ensures Par[1..] <= u
  {
    EscapedPrefix(u, Par[1..]);
  }

  /** A text whose escaped form starts with `\par ` but whose own first character is
      not a line feed spells `\par ` itself. */
  lemma ParInFront(t: string)
    requires |t| > 0 && t[0] != '\n'
    requires Par <= EscapeNewlines(t)
    ensures t[0] == Par[0] && Par[1..] <= t[1..]
  {
    ParTailEscaped(t);
    ParTailPlain(t[1..]);
  }

  /** A backslash followed by `par ` is an occurrence of `\par `. */
  lemma ParSpelled(t: string)
    requires |t| > 0 && t[0] == Par[0] && Par[1..] <= t[1..]
    ensures ContainsPar(t)
  {
    assert t[..|Par|] == Par;
  }

  /** Every note text that does not itself contain `\par ` can be read back from its document. */
  lemma RtfRoundTrip(t: string)
    requires !ContainsPar(t)
    ensures Unwrap(RtfWrap(t)) == Some(t)
  {
    var doc := RtfWrap(t);
    assert doc[|Header|..|doc| - 1] == EscapeNewlines(t);
    UnescapeEscape(t);
  }

  /** A lone line feed becomes exactly the control word. */
  lemma EscapeLineFeed()
    ensures EscapeNewlines(['\n']) == Par
  {
    var lf := ['\n'];
    EscapeHead(lf);
    assert lf[1..] == [];
  }

  /** The escaped form of `a`, `m`, `b` in a row. */
  lemma EscapeAround(a: string, m: string, b: string)
    ensures EscapeNewlines(a + m + b) == EscapeNewlines(a) + EscapeNewlines(m) + EscapeNewlines(b)
  {
    EscapeAppend(a + m, b);
    EscapeAppend(a, m);
  }

  /** Because backslashes are not escaped, a line feed and a literal `\par ` at the same
      place give the same document: `rtf_wrap` is not injective. */
  lemma WrapConflatesParagraphs(a: string, b: string)
    ensures a + ['\n'] + b != a + Par + b
    ensures RtfWrap(a + ['\n'] + b) == RtfWrap(a + Par + b)
  {
    assert |a + ['\n'] + b| < |a + Par + b|;
    EscapeAround(a, ['\n'], b);
    EscapeAround(a, Par, b);
    EscapeLineFeed();
    assert '\n' !in Par;
    EscapeVerbatim(Par);
  }
}

=== FILE: sanitize.dfy ===
/** `safe_name` (app.py): turns an arbitrary user string into a path segment by keeping
    only alphanumeric characters, space, `_` and `-`, in order, and then removing
    trailing whitespace with `str.rstrip`. */
module Sanitize {
  import opened Chars
  import opened Seqs

  /** A character the filter of `safe_name` keeps. */
  predicate Allowed(c: char)
  {
    IsAlnum(c) || c == ' ' || c == '_' || c == '-'
  }

  predicate AllAllowed(s: string)
  {
    forall i :: 0 <= i < |s| ==> Allowed(s[i])
  }

  /** A segment `safe_name` may return: only allowed characters, no trailing whitespace. */
  predicate IsSafeName(s: string)
  {
    AllAllowed(s) && (|s| == 0 || !PyIsSpace(s[|s| - 1]))
  }

  /** The generator expression of `safe_name`: the allowed characters of `s`. */
  function Keep(s: string): (r: string)
    ensures AllAllowed(r)
    ensures IsSubseq(r, s)
  {
    if |s| == 0 then []
    else
      assert s == [s[0]] + s[1..];
      if Allowed(s[0]) then [s[0]] + Keep(s[1..]) else Keep(s[1..])
  }

  /** The filter keeps every allowed character exactly as often as `s` holds it, and
      no other character. */
  lemma {:induction false} KeepCounts(s: string)
    ensures forall c :: multiset(Keep(s))[c] == if Allowed(c) then multiset(s)[c] else 0
  {
    if |s| > 0 {
      KeepCounts(s[1..]);
      assert s == [s[0]] + s[1..];
    }
  }

  /** `safe_name(name)`. */
  function SafeName(name: string): (r: string)
    ensures IsSafeName(r)
  {
    var kept := Keep(name);
    var r := TrimRight(kept, PyIsSpace);
    assert AllAllowed(r) by {
      forall i | 0 <= i < |r| ensures Allowed(r[i]) {
        assert r[i] == kept[i];
      }
    }
    r
  }

  /** What `safe_name` returns: the allowed characters of `name`, in order, without the
      spaces at the end; so it is a subsequence of `name` and never holds a path
      separator or a dot. */
  lemma SafeNameSpec(name: string)
    ensures var r, kept := SafeName(name), Keep(name);
      && IsSubseq(r, name)
      && r <= kept
      && (forall i :: |r| <= i < |kept| ==> kept[i] == ' ')
      && '/' !in r && '.' !in r
  {
    var kept := Keep(name);
    var r := SafeName(name);
    PrefixOfSubseq(kept, name, |r|);
    forall i | |r| <= i < |kept| ensures kept[i] == ' ' {
      AllowedSpace(kept[i]);
    }
  }

  /** The only whitespace the filter lets through is the space character. */
  lemma AllowedSpace(c: char)
    requires Allowed(c) && PyIsSpace(c)
    ensures c == ' '
  {
  }

  /** The filter keeps a string of allowed characters unchanged. */
  lemma {:induction false} KeepAllowed(s: string)
    requires AllAllowed(s)
    ensures Keep(s) == s
  {
    if |s| > 0 {
      KeepAllowed(s[1..]);
    }
  }

  /** The fixed points of `safe_name` are exactly the safe segments. */
  lemma SafeNameFixedPoint(s: string)
    ensures SafeName(s) == s <==> IsSafeName(s)
  {
    if IsSafeName(s) {
      KeepAllowed(s);
      TrimRightUnique(s, PyIsSpace, s);
    }
  }

  /** Sanitising twice is sanitising once. */
  lemma SafeNameIdempotent(s: string)
    ensures SafeName(SafeName(s)) == SafeName(s)
  {
    SafeNameFixedPoint(SafeName(s));
  }

  /** A sanitised segment can never step out of its directory. */
  lemma SafeNameIsOneSegment(s: string)
    ensures SafeName(s) != "." && SafeName(s) != ".."
    ensures forall i :: 0 <= i < |SafeName(s)| ==> SafeName(s)[i] != '/' && SafeName(s)[i] != '\\'
  {
    SafeNameSpec(s);
  }

  /** A name is "required" exactly when it holds no alphanumeric, `_` or `-` character:
      spaces alone sanitise to the empty string. */
  lemma SafeNameEmpty(s: string)
    ensures SafeName(s) == "" <==> forall i :: 0 <= i < |s| ==> !Allowed(s[i]) || s[i] == ' '
  {
    var kept := Keep(s);
    SafeNameSpec(s);
    KeepCounts(s);
    if SafeName(s) == "" {
      forall i | 0 <= i < |s| && Allowed(s[i])
        ensures s[i] == ' '
      {
        assert s[i] in multiset(s);
        assert s[i] in multiset(kept);
        var j :| 0 <= j < |kept| && kept[j] == s[i];
      }
    } else {
      var r := SafeName(s);
      var c := r[|r| - 1];
      assert c == kept[|r| - 1];
      assert c in multiset(kept);
      assert c in multiset(s);
      var i :| 0 <= i < |s| && s[i] == c;
      assert Allowed(s[i]) && s[i] != ' ';
    }
  }
}

=== FILE: seqs.dfy ===
/** Subsequences, prefixes, and the filter that drops the empty elements of a list. */
module Seqs {

  /** `a` is obtained from `b` by deleting elements, without reordering. */
  predicate IsSubseq<T(==)>(a: seq<T>, b: seq<T>)
    decreases |b|
  {
    if |a| == 0 then true
    else if |b| == 0 then false
    else if a[0] == b[0] then IsSubseq(a[1..], b[1..])
    else IsSubseq(a, b[1..])
  }

  /** Cutting the tail off a subsequence leaves a subsequence. */
  lemma {:induction false} PrefixOfSubseq<T>(a: seq<T>, b: seq<T>, k: nat)
    requires IsSubseq(a, b)
    requires k <= |a|
    ensures IsSubseq(a[..k], b)
    decreases |b|
  {
    if k == 0 || |a| == 0 {
    } else if a[0] == b[0] {
      PrefixOfSubseq(a[1..], b[1..], k - 1);
      assert a[..k][1..] == a[1..][..k - 1];
    } else {
      PrefixOfSubseq(a, b[1..], k);
    }
  }

  /** Dropping the first element of both sides keeps a prefix a prefix. */
  lemma PrefixShift<T>(p: seq<T>, s: seq<T>)
    requires |p| > 0 && p <= s
    ensures p[1..] <= s[1..]
  {
  }

  /** The non-empty elements of `xs`, in order. */
  function NonEmpty<T(==)>(xs: seq<seq<T>>): (r: seq<seq<T>>)
    ensures |r| <= |xs|
    ensures forall j :: 0 <= j < |r| ==> r[j] != [] && r[j] in xs
    ensures (forall i :: 0 <= i < |xs| ==> xs[i] != []) ==> r == xs
  {
    if |xs| == 0 then []
    else if xs[0] == [] then NonEmpty(xs[1..])
    else [xs[0]] + NonEmpty(xs[1..])
  }

  /** `NonEmpty` keeps exactly the non-empty elements, in order: it is a subsequence of
      `xs` that leaves out only the empty ones. */
  lemma {:induction false} NonEmptySpec<T>(xs: seq<seq<T>>)
    ensures IsSubseq(NonEmpty(xs), xs)
    ensures |NonEmpty(xs)| == |xs| - multiset(xs)[[]]
  {
    if |xs| > 0 {
      NonEmptySpec(xs[1..]);
      assert xs == [xs[0]] + xs[1..];
      var r := NonEmpty(xs);
      if xs[0] != [] {
        assert r[0] == xs[0] && r[1..] == NonEmpty(xs[1..]);
      }
    }
  }

  /** `NonEmpty` distributes over concatenation. */
  lemma {:induction false} NonEmptyAppend<T>(a: seq<seq<T>>, b: seq<seq<T>>)
    ensures NonEmpty(a + b) == NonEmpty(a) + NonEmpty(b)
  {
    if |a| == 0 {
      assert a + b == b;
    } else {
      assert (a + b)[1..] == a[1..] + b;
      NonEmptyAppend(a[1..], b);
    }
  }
}

=== FILE: store.dfy ===
/** The create routes of app.py and `download_note`, as operations on an abstract
    picture of the data directory: the set of directories below it and the map from
    file paths to file contents. A path is the list of names below the data
    directory; the data directory itself is the empty path and always exists.

    Every route sanitises each name it receives with `safe_name` before joining it
    into a path, so every directory and file the routes create lies strictly inside
    the data directory (`Wf`). */
module Store {
  import opened Wrappers
  import opened Seqs
  import opened Sanitize
  import opened Rtf

  type Path = seq<string>

  datatype Store = Store(dirs: set<Path>, files: map<Path, string>)

  /** The data directory as created at start-up: empty. */
  const Empty: Store := Store({}, map[])

  /** The page a route redirects to. */
  datatype View = IndexView | FolderView(folder: string) | ChapterView(folder: string, chapter: string)

  /** The flashed message, if any, and the redirect target. */
  datatype Reply = Reply(flash: Option<string>, next: View)

  datatype Outcome = Outcome(store: Store, reply: Reply)

  const FolderRequired: string := "Folder name required"
  const ChapterRequired: string := "Chapter name required"
  const NoteRequired: string := "Note title required"

  /** The extension `create_note` gives every note file. */
  const NoteExt: string := ".rtf"

  // ---------------------------------------------------------------- paths

  /** `os.path.join(DATA_DIR, *segs)`: an empty segment adds nothing. The segments are
      sanitised names, so none is absolute and none resets the path as a leading `/`
      would in `os.path.join`. */
  function Join(segs: seq<string>): (p: Path)
    ensures forall i :: 0 <= i < |p| ==> p[i] != "" && p[i] in segs
    ensures (forall i :: 0 <= i < |segs| ==> segs[i] != "") ==> p == segs
  {
    NonEmpty(segs)
  }

  /** `Join` of the two names of a chapter directory. */
  lemma JoinPair(a: string, b: string)
    ensures a == "" && b == "" ==> Join([a, b]) == []
    ensures a == "" && b != "" ==> Join([a, b]) == [b]
    ensures a != "" && b == "" ==> Join([a, b]) == [a]
    ensures a != "" && b != "" ==> Join([a, b]) == [a, b]
  {
    assert [a, b][1..] == [b];
    assert [b][1..] == [];
    assert NonEmpty([b]) == if b == "" then [] else [b];
  }

  /** A directory name the routes can create: a non-empty `safe_name` result. */
  predicate SafeSegment(x: string)
  {
    x != "" && IsSafeName(x)
  }

  /** A note file name: a safe segment followed by `.rtf`. */
  predicate NoteName(x: string)
  {
    |x| > |NoteExt| && x[|x| - |NoteExt|..] == NoteExt && SafeSegment(x[..|x| - |NoteExt|])
  }

  predicate SafePath(p: Path)
  {
    forall i :: 0 <= i < |p| ==> SafeSegment(p[i])
  }

  /** The directory that holds `p` exists: it is the data directory or a known directory. */
  predicate ParentExists(st: Store, p: Path)
    requires |p| > 0
  {
    |p| == 1 || p[..|p| - 1] in st.dirs
  }

  /** What the routes keep true of the data directory: directories are chains of safe
      segments whose parents exist, and files are notes inside such directories. */
  predicate Wf(st: Store)
  {
    && (forall p :: p in st.dirs ==> |p| > 0 && SafePath(p) && ParentExists(st, p))
    && (forall p :: p in st.files ==>
          |p| > 0 && SafePath(p[..|p| - 1]) && NoteName(p[|p| - 1]) && ParentExists(st, p))
  }

  /** The path `create_note` writes for a note titled `title` in directory `dir`. */
  function NotePath(dir: Path, title: string): (p: Path)
    ensures |p| == |dir| + 1 && p[..|dir|] == dir
    ensures p[|dir|] == title + NoteExt
  {
    dir + [title + NoteExt]
  }

  // ---------------------------------------------------------------- file-system steps

  /** The directories `p` passes through, `p` itself included. */
  function Prefixes(p: Path): (made: set<Path>)
    ensures forall q :: q in made <==> 0 < |q| <= |p| && q == p[..|q|]
  {
    var made := set i | 1 <= i <= |p| :: p[..i];
    assert forall q :: 0 < |q| <= |p| && q == p[..|q|] ==> q in made;
    made
  }

  /** `os.makedirs(p, exist_ok=True)`: `p` and every directory above it exist afterwards;
      directories that already exist are no error. */
  function MakeDirs(st: Store, p: Path): (r: Store)
    ensures r.files == st.files
    ensures forall q :: q in r.dirs <==> q in st.dirs || (0 < |q| <= |p| && q == p[..|q|])
  {
    st.(dirs := st.dirs + Prefixes(p))
  }

  /** `os.makedirs(dir, exist_ok=True)` followed by writing `content` to `<t>.rtf` in `dir`,
      replacing whatever that file held. */
  function WriteNote(st: Store, dir: Path, t: string, content: string): (r: Store)
    ensures NotePath(dir, t) in r.files && r.files[NotePath(dir, t)] == content
    ensures forall q :: q != NotePath(dir, t) ==> (q in r.files <==> q in st.files)
    ensures forall q :: q != NotePath(dir, t) && q in st.files ==> r.files[q] == st.files[q]
    ensures forall q :: q in r.dirs <==> q in st.dirs || (0 < |q| <= |dir| && q == dir[..|q|])
  {
    var m := MakeDirs(st, dir);
    m.(files := m.files[NotePath(dir, t) := content])
  }

  /** A second write of the same note leaves what a single write of the second text leaves. */
  lemma WriteNoteTwice(st: Store, dir: Path, t: string, x1: string, x2: string)
    ensures WriteNote(WriteNote(st, dir, t, x1), dir, t, x2) == WriteNote(st, dir, t, x2)
  {
    var p := NotePath(dir, t);
    var m := MakeDirs(st, dir);
    assert m.dirs + Prefixes(dir) == m.dirs;
    assert m.files[p := x1][p := x2] == m.files[p := x2];
  }

  /** `makedirs` of a one- or two-level path. */
  lemma MakeDirsShort(st: Store, p: Path)
    requires 1 <= |p| <= 2
    ensures |p| == 1 ==> MakeDirs(st, p).dirs == st.dirs + {p}
    ensures |p| == 2 ==> MakeDirs(st, p).dirs == st.dirs + {[p[0]], p}
  {
    assert p[..|p|] == p;
    assert p[..1] == [p[0]];
  }

  // ---------------------------------------------------------------- routes

  /** `create_folder`. */
  function CreateFolder(st: Store, name: string): (o: Outcome)
    ensures var n := SafeName(name);
      n == "" ==> o == Outcome(st, Reply(Some(FolderRequired), IndexView))
    ensures var n := SafeName(name);
      n != "" ==> && o.store.files == st.files
                  && o.store.dirs == st.dirs + {[n]}
                  && o.reply == Reply(None, FolderView(n))
  {
    var n := SafeName(name);
    if n == "" then Outcome(st, Reply(Some(FolderRequired), IndexView))
    else
      var r := MakeDirs(st, Join([n]));
      assert r.dirs == st.dirs + {[n]};
      Outcome(r, Reply(None, FolderView(n)))
  }

  /** `create_chapter`. With a folder name that sanitises to nothing, the chapter
      directory lands directly in the data directory. */
  function CreateChapter(st: Store, folder: string, chapter: string): (o: Outcome)
    ensures var f, c := SafeName(folder), SafeName(chapter);
      c == "" ==> o == Outcome(st, Reply(Some(ChapterRequired), FolderView(f)))
    ensures var f, c := SafeName(folder), SafeName(chapter);
      c != "" ==> && o.store.files == st.files
                  && o.store.dirs == st.dirs + (if f == "" then {[c]} else {[f], [f, c]})
                  && o.reply == Reply(None, ChapterView(f, c))
  {
    var f, c := SafeName(folder), SafeName(chapter);
    if c == "" then Outcome(st, Reply(Some(ChapterRequired), FolderView(f)))
    else
      var dir := Join([f, c]);
      JoinPair(f, c);
      MakeDirsShort(st, dir);
      assert dir[0] == if f == "" then c else f;
      Outcome(MakeDirs(st, dir), Reply(None, ChapterView(f, c)))
  }

  /** `create_note`: the note is (over)written as `<title>.rtf` holding `rtf_wrap(text)`. */
  function CreateNote(st: Store, folder: string, chapter: string, title: string, text: string): (o: Outcome)
    ensures var f, c, t := SafeName(folder), SafeName(chapter), SafeName(title);
      t == "" ==> o == Outcome(st, Reply(Some(NoteRequired), ChapterView(f, c)))
    ensures var f, c, t := SafeName(folder), SafeName(chapter), SafeName(title);
      var p := NotePath(Join([f, c]), t);
      t != "" ==> && p in o.store.files
                  && o.store.files[p] == RtfWrap(text)
                  && (forall q :: q in o.store.files && q != p ==> q in st.files && o.store.files[q] == st.files[q])
                  && (forall q :: q in st.files ==> q in o.store.files)
                  && (forall q :: q in o.store.dirs <==> q in st.dirs || (0 < |q| && q <= Join([f, c])))
                  && o.reply == Reply(None, ChapterView(f, c))
  {
    var f, c, t := SafeName(folder), SafeName(chapter), SafeName(title);
    if t == "" then Outcome(st, Reply(Some(NoteRequired), ChapterView(f, c)))
    else
      Outcome(WriteNote(st, Join([f, c]), t, RtfWrap(text)), Reply(None, ChapterView(f, c)))
  }

  /** `download_note`: the file is looked up under the sanitised note name; `None` is
      the "not found" answer of `send_from_directory`. */
  function DownloadNote(st: Store, folder: string, chapter: string, note: string): (r: Option<string>)
    ensures var p := Join([SafeName(folder), SafeName(chapter), SafeName(note)]);
      r.Some? <==> p in st.files
    ensures var p := Join([SafeName(folder), SafeName(chapter), SafeName(note)]);
      r.Some? ==> r.value == st.files[p]
  {
    var p := Join([SafeName(folder), SafeName(chapter), SafeName(note)]);
    if p in st.files then Some(st.files[p]) else None
  }

  /** The file a note request should name: the sanitised stem of a `.rtf` name, with the
      extension put back. `None` when the request does not name a note file. */
  function NoteFile(folder: string, chapter: string, note: string): (p: Option<Path>)
    ensures p.Some? <==> |note| > |NoteExt| && note[|note| - |NoteExt|..] == NoteExt
                         && SafeName(note[..|note| - |NoteExt|]) != ""
    ensures p.Some? ==> |p.value| > 0 && NoteName(p.value[|p.value| - 1]) && SafePath(p.value[..|p.value| - 1])
    ensures p.Some? ==> p.value[..|p.value| - 1] == Join([SafeName(folder), SafeName(chapter)])
  {
    if |note| > |NoteExt| && note[|note| - |NoteExt|..] == NoteExt then
      var stem := SafeName(note[..|note| - |NoteExt|]);
      if stem == "" then None
      else
        var dir := Join([SafeName(folder), SafeName(chapter)]);
        var p := NotePath(dir, stem);
        assert (stem + NoteExt)[..|stem|] == stem;
        assert p[..|p| - 1] == dir;
        Some(p)
    else None
  }

  /** `NoteFile` reads back the file name `NotePath` gives a sanitised title. */
  lemma NoteFileOfNotePath(folder: string, chapter: string, t: string)
    requires SafeSegment(t)
    ensures NoteFile(folder, chapter, t + NoteExt) == Some(NotePath(Join([SafeName(folder), SafeName(chapter)]), t))
  {
    var name := t + NoteExt;
    assert name[..|name| - |NoteExt|] == t;
    assert name[|name| - |NoteExt|..] == NoteExt;
    SafeNameFixedPoint(t);
  }

  /** `download_note` as evidently intended: keeps the `.rtf` extension that
      `create_note` gives every note file. */
  function DownloadNoteFixed(st: Store, folder: string, chapter: string, note: string): (r: Option<string>)
    ensures r.Some? <==> NoteFile(folder, chapter, note).Some? && NoteFile(folder, chapter, note).value in st.files
    ensures r.Some? ==> r.value == st.files[NoteFile(folder, chapter, note).value]
  {
    match NoteFile(folder, chapter, note)
    case None => None
    case Some(p) => if p in st.files then Some(st.files[p]) else None
  }

  // ---------------------------------------------------------------- invariant

  /** The data directory starts out well formed. */
  lemma EmptyWf()
    ensures Wf(Empty)
  {
  }

  /** The sanitised, joined names of a route form a safe path. */
  lemma JoinSafe(segs: seq<string>)
    requires forall i :: 0 <= i < |segs| ==> IsSafeName(segs[i])
    ensures SafePath(Join(segs))
  {
  }

  /** Creating a safe directory chain keeps the data directory well formed. */
  lemma MakeDirsWf(st: Store, p: Path)
    requires Wf(st) && SafePath(p)
    ensures Wf(MakeDirs(st, p))
  {
    var r := MakeDirs(st, p);
    forall q | q in r.dirs
      ensures |q| > 0 && SafePath(q) && ParentExists(r, q)
    {
      if q !in st.dirs {
        assert q == p[..|q|];
        if |q| > 1 {
          assert q[..|q| - 1] == p[..|q| - 1];
        }
      }
    }
  }

  lemma CreateFolderWf(st: Store, name: string)
    requires Wf(st)
    ensures Wf(CreateFolder(st, name).store)
  {
    var n := SafeName(name);
    if n != "" {
      JoinSafe([n]);
      MakeDirsWf(st, Join([n]));
    }
  }

  lemma CreateChapterWf(st: Store, folder: string, chapter: string)
    requires Wf(st)
    ensures Wf(CreateChapter(st, folder, chapter).store)
  {
    var f, c := SafeName(folder), SafeName(chapter);
    if c != "" {
      JoinSafe([f, c]);
      MakeDirsWf(st, Join([f, c]));
    }
  }

  /** `t + ".rtf"` is a note file name for every non-empty sanitised title `t`. */
  lemma NoteNameOf(t: string)
    requires SafeSegment(t)
    ensures NoteName(t + NoteExt)
  {
    var x := t + NoteExt;
    assert x[..|x| - |NoteExt|] == t;
    assert x[|x| - |NoteExt|..] == NoteExt;
  }

  /** Writing a note into an existing safe directory keeps the data directory well formed. */
  lemma WriteNoteWf(st: Store, dir: Path, t: string, content: string)
    requires Wf(st) && SafePath(dir) && (dir == [] || dir in st.dirs)
    requires SafeSegment(t)
    ensures Wf(st.(files := st.files[NotePath(dir, t) := content]))
  {
    var p := NotePath(dir, t);
    NoteNameOf(t);
    assert p[|p| - 1] == t + NoteExt;
    assert p[..|p| - 1] == dir;
  }

  lemma CreateNoteWf(st: Store, folder: string, chapter: string, title: string, text: string)
    requires Wf(st)
    ensures Wf(CreateNote(st, folder, chapter, title, text).store)
  {
    var f, c, t := SafeName(folder), SafeName(chapter), SafeName(title);
    if t != "" {
      var dir := Join([f, c]);
      JoinSafe([f, c]);
      MakeDirsWf(st, dir);
      var r := MakeDirs(st, dir);
      assert dir == [] || dir in r.dirs by {
        if dir != [] {
          assert dir == dir[..|dir|];
        }
      }
      WriteNoteWf(r, dir, t, RtfWrap(text));
      assert CreateNote(st, folder, chapter, title, text).store == r.(files := r.files[NotePath(dir, t) := RtfWrap(text)]);
    }
  }

  /** A well-formed data directory never has a file and a directory at the same path:
      note names carry a `.`, which no sanitised directory name can. So `makedirs` never
      meets a file and `open(..., 'w')` never meets a directory. */
  lemma DirsAndFilesDisjoint(st: Store, p: Path)
    requires Wf(st)
    ensures !(p in st.dirs && p in st.files)
  {
    if p in st.files {
      NoteNameHasDot(p[|p| - 1]);
    }
    if p in st.dirs {
      SafeSegmentNoDot(p[|p| - 1]);
    }
  }

  /** No sanitised name holds a dot. */
  lemma SafeSegmentNoDot(x: string)
    requires SafeSegment(x)
    ensures '.' !in x
  {
  }

  // ---------------------------------------------------------------- route properties

  /** Creating a folder twice is creating it once. */
  lemma CreateFolderIdempotent(st: Store, name: string)
    ensures var o := CreateFolder(st, name); CreateFolder(o.store, name) == o
  {
  }

  /** Creating a chapter twice is creating it once. */
  lemma CreateChapterIdempotent(st: Store, folder: string, chapter: string)
    ensures var o := CreateChapter(st, folder, chapter); CreateChapter(o.store, folder, chapter) == o
  {
  }

  /** A second note with the same title replaces the first one's text. */
  lemma CreateNoteOverwrites(st: Store, folder: string, chapter: string, title: string, text1: string, text2: string)
    ensures var o1 := CreateNote(st, folder, chapter, title, text1);
      CreateNote(o1.store, folder, chapter, title, text2) == CreateNote(st, folder, chapter, title, text2)
  {
    var f, c, t := SafeName(folder), SafeName(chapter), SafeName(title);
    if t != "" {
      WriteNoteTwice(st, Join([f, c]), t, RtfWrap(text1), RtfWrap(text2));
    }
  }

  /** As written, `download_note` never serves a file of a well-formed data directory:
      the sanitised name has lost the `.` of `.rtf`. */
  lemma DownloadNeverServes(st: Store, folder: string, chapter: string, note: string)
    requires Wf(st)
    ensures DownloadNote(st, folder, chapter, note) == None
  {
    var segs := [SafeName(folder), SafeName(chapter), SafeName(note)];
    var p := Join(segs);
    if p in st.files {
      var x := p[|p| - 1];
      assert x in segs;
      SafeNameSpec(folder);
      SafeNameSpec(chapter);
      SafeNameSpec(note);
      assert '.' !in x;
      NoteNameHasDot(x);
    }
  }

  /** Every note file name holds a dot. */
  lemma NoteNameHasDot(x: string)
    requires NoteName(x)
    ensures '.' in x
  {
    assert x[|x| - |NoteExt|] == NoteExt[0];
  }

  /** The note `create_note` has just written cannot be downloaded by its file name. */
  lemma CreatedNoteNotDownloadable(st: Store, folder: string, chapter: string, title: string, text: string)
    requires Wf(st)
    requires SafeName(title) != ""
    ensures var o := CreateNote(st, folder, chapter, title, text);
      && NotePath(Join([SafeName(folder), SafeName(chapter)]), SafeName(title)) in o.store.files
      && DownloadNote(o.store, folder, chapter, SafeName(title) + NoteExt) == None
  {
    CreateNoteWf(st, folder, chapter, title, text);
    DownloadNeverServes(CreateNote(st, folder, chapter, title, text).store, folder, chapter, SafeName(title) + NoteExt);
  }

  /** With the extension kept, the note `create_note` writes is served back by its file name. */
  lemma DownloadFixedServesNote(st: Store, folder: string, chapter: string, title: string, text: string)
    requires SafeName(title) != ""
    ensures var o := CreateNote(st, folder, chapter, title, text);
      DownloadNoteFixed(o.store, folder, chapter, SafeName(title) + NoteExt) == Some(RtfWrap(text))
  {
    var t := SafeName(title);
    var name := t + NoteExt;
    assert name[..|name| - |NoteExt|] == t;
    assert name[|name| - |NoteExt|..] == NoteExt;
    SafeNameIdempotent(title);
  }
}

=== FILE: wordcount.dfy ===
/** The word counter of `updateWordCount` (static/editor.js):
    `text.trim().split(/\s+/).filter(Boolean).length`.

    `Tokens` follows those three steps literally. `Words` is an independent
    reference tokeniser (skip whitespace, take a maximal run of other characters,
    repeat), and `RunStarts` counts the places where such a run begins; the lemmas
    show that the three agree. */
module WordCount {
  import opened Chars
  import opened Seqs

  /** A non-empty token without whitespace. */
  predicate IsWord(w: string)
  {
    |w| > 0 && forall i :: 0 <= i < |w| ==> !JsIsSpace(w[i])
  }

  predicate AllWs(s: string)
  {
    forall i :: 0 <= i < |s| ==> JsIsSpace(s[i])
  }

  /** Leading whitespace removed. */
  function DropWs(s: string): (r: string)
    ensures |r| <= |s| && r == s[|s| - |r|..]
    ensures forall i :: 0 <= i < |s| - |r| ==> JsIsSpace(s[i])
    ensures |r| == 0 || !JsIsSpace(r[0])
    ensures |r| == 0 <==> AllWs(s)
    ensures |s| > 0 && JsIsSpace(s[0]) ==> |r| < |s|
  {
    TrimLeft(s, JsIsSpace)
  }

  /** Length of the maximal prefix of non-whitespace characters. */
  function FieldLen(s: string): (k: nat)
    ensures k <= |s|
    ensures forall i :: 0 <= i < k ==> !JsIsSpace(s[i])
    ensures k == |s| || JsIsSpace(s[k])
  {
    if |s| == 0 || JsIsSpace(s[0]) then 0 else 1 + FieldLen(s[1..])
  }

  /** `String.prototype.trim`. */
  function Trim(s: string): (r: string)
    ensures r <= DropWs(s)
    ensures forall k :: |r| <= k < |DropWs(s)| ==> JsIsSpace(DropWs(s)[k])
    ensures |r| == 0 || (!JsIsSpace(r[0]) && !JsIsSpace(r[|r| - 1]))
  {
    var l := DropWs(s);
    var r := TrimRight(l, JsIsSpace);
    assert |r| == 0 || r[0] == l[0];
    r
  }

  /** `s.split(/\s+/)`: the fields between maximal whitespace runs. The first and last
      field are empty when `s` starts or ends with whitespace; `""` gives `[""]`. */
  function SplitWs(s: string): (parts: seq<string>)
    ensures |parts| > 0
    ensures forall j, i :: 0 <= j < |parts| && 0 <= i < |parts[j]| ==> !JsIsSpace(parts[j][i])
    decreases |s|
  {
    var k := FieldLen(s);
    if k == |s| then [s]
    else [s[..k]] + SplitWs(DropWs(s[k..]))
  }

  /** The reference tokeniser: the maximal runs of non-whitespace characters, in order. */
  function Words(s: string): (ws: seq<string>)
    ensures forall w :: w in ws ==> IsWord(w)
    decreases |s|
  {
    if |s| == 0 then []
    else if JsIsSpace(s[0]) then Words(s[1..])
    else
      var k := FieldLen(s);
      var w := s[..k];
      assert IsWord(w);
      [w] + Words(s[k..])
  }

  /** The number of positions where a run of non-whitespace characters begins, given
      whether the character before `s` was whitespace (or absent). */
  function RunStarts(s: string, afterWs: bool): nat
  {
    if |s| == 0 then 0
    else (if afterWs && !JsIsSpace(s[0]) then 1 else 0) + RunStarts(s[1..], JsIsSpace(s[0]))
  }

  /** The number of maximal runs of non-whitespace characters in `s`. */
  function RunCount(s: string): nat
  {
    RunStarts(s, true)
  }

  /** `s` with every whitespace character removed. */
  function Squeeze(s: string): (r: string)
    ensures forall i :: 0 <= i < |r| ==> !JsIsSpace(r[i])
  {
    if |s| == 0 then []
    else if JsIsSpace(s[0]) then Squeeze(s[1..])
    else [s[0]] + Squeeze(s[1..])
  }

  /** The words written one after another. */
  function Concat(ws: seq<string>): string
  {
    if |ws| == 0 then [] else ws[0] + Concat(ws[1..])
  }

  // ---------------------------------------------------------------- helpers

  lemma DropWsIdempotent(s: string)
    ensures DropWs(DropWs(s)) == DropWs(s)
  {
  }

  /** Whitespace in front never changes the words. */
  lemma {:induction false} WordsDropWs(s: string)
    ensures Words(DropWs(s)) == Words(s)
    decreases |s|
  {
    if |s| > 0 && JsIsSpace(s[0]) {
      WordsDropWs(s[1..]);
    }
  }

  /** A prefix of non-whitespace characters is measured the same after anything that
      starts with whitespace is appended. */
  lemma FieldLenAppend(s: string, t: string)
    requires FieldLen(s) < |s| || |t| == 0 || JsIsSpace(t[0])
    ensures FieldLen(s + t) == FieldLen(s)
  {
    var k := FieldLen(s);
    var u := s + t;
    FieldLenUnique(u, k);
  }

  /** `FieldLen` is determined by its three properties. */
  lemma FieldLenUnique(s: string, k: nat)
    requires k <= |s|
    requires forall i :: 0 <= i < k ==> !JsIsSpace(s[i])
    requires k == |s| || JsIsSpace(s[k])
    ensures FieldLen(s) == k
  {
  }

  /** Trailing text after a non-blank string does not change where its first word starts. */
  lemma DropWsAppend(s: string, t: string)
    requires DropWs(s) != []
    ensures DropWs(s + t) == DropWs(s) + t
  {
    var r := DropWs(s) + t;
    var u := s + t;
    assert r == u[|u| - |r|..];
    TrimLeftUnique(u, JsIsSpace, r);
  }

  /** One step of `Words` on a text that is not all whitespace. */
  lemma WordsUnfold(s: string)
    requires DropWs(s) != []
    ensures var d := DropWs(s); var k := FieldLen(d);
      k > 0 && Words(s) == [d[..k]] + Words(d[k..])
  {
    WordsDropWs(s);
  }

  /** `Concat` of a word followed by more words. */
  lemma ConcatCons(w: string, ws: seq<string>)
    ensures Concat([w] + ws) == w + Concat(ws)
  {
    assert ([w] + ws)[1..] == ws;
  }

  /** Whitespace in front of a text never changes what `DropWs` leaves. */
  lemma DropWsPrepend(before: string, text: string)
    requires AllWs(before)
    ensures DropWs(before + text) == DropWs(text)
  {
    var s := before + text;
    var r := DropWs(text);
    assert r == s[|s| - |r|..];
    TrimLeftUnique(s, JsIsSpace, r);
  }

  lemma AllWsAppend(a: string, b: string)
    requires AllWs(a) && AllWs(b)
    ensures AllWs(a + b)
  {
  }

  lemma SliceAppend(a: string, b: string, k: nat)
    requires k <= |a|
    ensures (a + b)[..k] == a[..k] && (a + b)[k..] == a[k..] + b
  {
  }

  /** A string of whitespace has no words. */
  lemma WordsAllWs(s: string)
    requires AllWs(s)
    ensures Words(s) == []
  {
  }

  // ---------------------------------------------------------------- properties

  /** The empty field `split(/\s+/)` puts in front of a text that starts with whitespace. */
  function LeadField(s: string): seq<string>
  {
    if |s| > 0 && JsIsSpace(s[0]) then [""] else []
  }

  /** The empty field `split(/\s+/)` puts after a text that is empty or ends with whitespace. */
  function TrailField(s: string): seq<string>
  {
    if |s| == 0 || JsIsSpace(s[|s| - 1]) then [""] else []
  }

  /** A whitespace-led tail of `s` and what `DropWs` leaves of it end alike. */
  lemma TrailDropWs(s: string, k: nat)
    requires k < |s| && JsIsSpace(s[k])
    ensures TrailField(DropWs(s[k..])) == TrailField(s)
  {
    var t := s[k..];
    var r := DropWs(t);
    if |r| == 0 {
      assert JsIsSpace(t[|t| - 1]);
    } else {
      assert r[|r| - 1] == t[|t| - 1];
    }
    assert t[|t| - 1] == s[|s| - 1];
  }

  /** Regrouping the fields around a first field `x`, when the leading field `lead` of
      the rest is empty. `lead` is a parameter rather than an inline `[]` so that the
      ensures mention the caller's own `LeadField` term, which the caller knows to be
      empty; the solver then needs no rewriting of that term. */
  lemma Regroup(lead: seq<string>, x: seq<string>, w: seq<string>, t: seq<string>)
    requires lead == []
    ensures x + (lead + w + t) == lead + (x + w) + t
  {
  }

  /** Regrouping the fields after the empty first field `x`, when the leading field
      `lead` of the rest is empty; `lead` is a parameter for the same reason as in
      `Regroup`. */
  lemma RegroupLead(lead: seq<string>, x: seq<string>, w: seq<string>, t: seq<string>)
    requires lead == []
    ensures x + (lead + w + t) == x + w + t
  {
  }

  /** `SplitWs` past its first field. */
  lemma SplitWsUnfold(s: string)
    requires FieldLen(s) < |s|
    ensures SplitWs(s) == [s[..FieldLen(s)]] + SplitWs(DropWs(s[FieldLen(s)..]))
  {
  }

  /** `Words` past a first word. */
  lemma WordsFirst(s: string)
    requires 0 < FieldLen(s)
    ensures Words(s) == [s[..FieldLen(s)]] + Words(s[FieldLen(s)..])
  {
  }

  /** One step of `SplitWs` past a leading whitespace run, given the fields of the rest. */
  lemma SplitWsLeadingSpace(s: string)
    requires FieldLen(s) == 0 < |s|
    requires var rest := DropWs(s);
      SplitWs(rest) == LeadField(rest) + Words(rest) + TrailField(rest)
    ensures SplitWs(s) == LeadField(s) + Words(s) + TrailField(s)
  {
    var rest := DropWs(s);
    assert s[0..] == s && s[..0] == "";
    SplitWsUnfold(s);
    assert LeadField(rest) == [];
    TrailDropWs(s, 0);
    WordsDropWs(s);
    assert LeadField(s) == [""];
    RegroupLead(LeadField(rest), [""], Words(rest), TrailField(rest));
  }

  /** One step of `SplitWs` past a first word, given the fields of the rest. */
  lemma SplitWsLeadingWord(s: string)
    requires 0 < FieldLen(s) < |s|
    requires var rest := DropWs(s[FieldLen(s)..]);
      SplitWs(rest) == LeadField(rest) + Words(rest) + TrailField(rest)
    ensures SplitWs(s) == LeadField(s) + Words(s) + TrailField(s)
  {
    var k := FieldLen(s);
    var rest := DropWs(s[k..]);
    SplitWsUnfold(s);
    WordsFirst(s);
    assert LeadField(rest) == [];
    assert LeadField(s) == [];
    TrailDropWs(s, k);
    WordsDropWs(s[k..]);
    Regroup(LeadField(rest), [s[..k]], Words(rest), TrailField(rest));
  }

  /** The fields of `split(/\s+/)` are the words, with an empty field in front when the text
      starts with whitespace and an empty field at the end when it is empty or ends with
      whitespace. */
  lemma {:induction false} SplitWsFields(s: string)
    ensures SplitWs(s) == LeadField(s) + Words(s) + TrailField(s)
    decreases |s|
  {
    var k := FieldLen(s);
    if k == |s| {
      if |s| > 0 {
        assert s[..k] == s && s[k..] == [];
      }
    } else {
      SplitWsFields(DropWs(s[k..]));
      if k == 0 {
        assert s[k..] == s;
        SplitWsLeadingSpace(s);
      } else {
        SplitWsLeadingWord(s);
      }
    }
  }

  /** The split-then-filter pipeline finds the reference words. */
  lemma {:induction false} SplitFindsWords(s: string)
    ensures NonEmpty(SplitWs(s)) == Words(s)
    decreases |s|
  {
    var k := FieldLen(s);
    if k == |s| {
      if |s| > 0 {
        assert DropWs(s) == s;
        WordsUnfold(s);
        assert s[..k] == s && s[k..] == [];
        assert [s][1..] == [];
      }
    } else {
      var rest := DropWs(s[k..]);
      assert SplitWs(s) == [s[..k]] + SplitWs(rest);
      NonEmptyAppend([s[..k]], SplitWs(rest));
      SplitFindsWords(rest);
      WordsDropWs(s[k..]);
      if k == 0 {
        assert s[k..] == s;
        WordsDropWs(s);
        DropWsIdempotent(s);
      } else {
        assert DropWs(s) == s;
      }
    }
  }

  /** Whitespace appended after the text never changes the words. */
  lemma {:induction false} WordsAppendWs(s: string, w: string)
    requires AllWs(w)
    ensures Words(s + w) == Words(s)
    decreases |s|
  {
    var d := DropWs(s);
    var u := s + w;
    if |d| == 0 {
      AllWsAppend(s, w);
      WordsAllWs(u);
      WordsAllWs(s);
    } else {
      DropWsAppend(s, w);
      var k := FieldLen(d);
      FieldLenAppend(d, w);
      WordsUnfold(s);
      WordsUnfold(u);
      SliceAppend(d, w, k);
      WordsAppendWs(d[k..], w);
    }
  }

  /** `Trim` is `DropWs` followed by cutting off a tail of whitespace. */
  lemma TrimTail(s: string)
    ensures var l, r := DropWs(s), Trim(s);
      |r| <= |l| && l == r + l[|r|..] && AllWs(l[|r|..])
  {
    TrimRightSplit(DropWs(s), JsIsSpace);
  }

  /** Whitespace around the text never changes the words. */
  lemma WordsTrim(s: string)
    ensures Words(Trim(s)) == Words(s)
  {
    var l, r := DropWs(s), Trim(s);
    TrimTail(s);
    WordsAppendWs(r, l[|r|..]);
    WordsDropWs(s);
  }

  /** Inside a word the count waits for the next whitespace. */
  lemma {:induction false} RunStartsInWord(s: string, k: nat)
    requires k <= |s|
    requires forall i :: 0 <= i < k ==> !JsIsSpace(s[i])
    ensures RunStarts(s, false) == RunStarts(s[k..], false)
    decreases k
  {
    if k > 0 {
      RunStartsInWord(s[1..], k - 1);
      assert s[1..][k - 1..] == s[k..];
    }
  }

  /** Counting the reference words counts the runs. */
  lemma {:induction false} WordsCountRuns(s: string)
    ensures |Words(s)| == RunCount(s)
    decreases |s|
  {
    if |s| > 0 {
      if JsIsSpace(s[0]) {
        WordsCountRuns(s[1..]);
      } else {
        var k := FieldLen(s);
        var rest := s[k..];
        WordsCountRuns(rest);
        RunStartsInWord(s[1..], k - 1);
        assert s[1..][k - 1..] == rest;
        assert RunStarts(rest, false) == RunStarts(rest, true);
      }
    }
  }

  lemma {:induction false} SqueezeAppend(a: string, b: string)
    ensures Squeeze(a + b) == Squeeze(a) + Squeeze(b)
  {
    if |a| == 0 {
      assert a + b == b;
    } else {
      assert (a + b)[1..] == a[1..] + b;
      SqueezeAppend(a[1..], b);
    }
  }

  lemma {:induction false} SqueezeWord(w: string)
    requires forall i :: 0 <= i < |w| ==> !JsIsSpace(w[i])
    ensures Squeeze(w) == w
  {
    if |w| > 0 {
      SqueezeWord(w[1..]);
    }
  }

  /** The words, written one after another, are the text without its whitespace. */
  lemma {:induction false} WordsConcat(s: string)
    ensures Concat(Words(s)) == Squeeze(s)
    decreases |s|
  {
    if |s| > 0 {
      if JsIsSpace(s[0]) {
        WordsConcat(s[1..]);
      } else {
        var k := FieldLen(s);
        var w, rest := s[..k], s[k..];
        ConcatCons(w, Words(rest));
        WordsConcat(rest);
        assert s == w + rest;
        SqueezeAppend(w, rest);
        SqueezeWord(w);
      }
    }
  }

  /** A text has no words exactly when it is all whitespace. */
  lemma WordsEmpty(s: string)
    ensures Words(s) == [] <==> AllWs(s)
  {
  }

  // ---------------------------------------------------------------- the counter

  /** `text.trim().split(/\s+/).filter(Boolean)`. */
  function Tokens(text: string): (ws: seq<string>)
    ensures ws == Words(text)
    ensures forall j :: 0 <= j < |ws| ==> IsWord(ws[j])
    ensures Concat(ws) == Squeeze(text)
  {
    var t := Trim(text);
    SplitFindsWords(t);
    WordsTrim(text);
    WordsConcat(text);
    NonEmpty(SplitWs(t))
  }

  /** `words.length`: the number shown in the word counter. */
  function WordCount(text: string): (n: nat)
    ensures n == RunCount(text)
    ensures n == 0 <==> AllWs(text)
  {
    WordsCountRuns(text);
    WordsEmpty(text);
    |Tokens(text)|
  }

  /** Whitespace around a text never changes its count. */
  lemma WordCountIgnoresPadding(before: string, text: string, after: string)
    requires AllWs(before) && AllWs(after)
    ensures WordCount(before + text + after) == WordCount(text)
  {
    WordsAppendWs(before + text, after);
    DropWsPrepend(before, text);
    WordsDropWs(before + text);
    WordsDropWs(text);
  }
}

=== FILE: wrappers.dfy ===
/** The option type: the answer of a lookup that may find nothing. */
module Wrappers {

  datatype Option<+T> = None | Some(value: T)
}
